=== FILE: README.md ===
# AirSalesR in Dafny

AirSalesR is a pair of console programs that simulate ticket sales. **Sales**
keeps three flights (12 first-class seats at 800, 120 economy seats at 300 each),
a queue of arriving clients and five worker threads. Each worker takes the next
client, tries the flights in list order and books the first free seat; the class
is picked by a coin flip and falls back to the other class when the chosen one is
sold out. After every sale Sales adds the cost to its revenue and one to its
clients served, and publishes both as two little-endian int32 values at offsets
0 and 4 of a named shared-memory segment. **Manager** polls that segment every
second, mirrors the two numbers, and asks Sales to stop (code `0x7A`) once revenue
reaches 600000; a departure timer makes it send `0x5D`; Sales sends `0x9E` when
every flight is sold out. Each process ends at most once: the first reason wins.

This project models the sequential logic of the two processes as atomic
methods, each coarser than the source's locking wherever the source does work
outside its lock. `SellStep` makes a whole pass of the worker loop one step,
from the dequeue to the publish of the snapshot. Sales's `EndOfSales` and
Manager's `EndOfOperation` and `OnDataReceived` are each one step, although the
source locks only their check-and-set of the ended flag and cancels, stops the
timers, logs and sends after the lock. `DepartureTimerOnElapsed` and
`ReadMmfEverySecond` are each one step, including the sends that follow their
locked check. "## Left out" says what this hides.
The modules are:

- `Flights` — the seat counters and `TryBookSeat` (the coin is an input), the
  booking rule as a function `Cost`, and a replay of any history of attempts
  (`Run`) with the bound of at most 132 successes per flight.
- `SalesProgram` — the Sales process as a class: the flight list, the statistics
  register, the shared segment as an `array`, the client queue, the one-shot
  `EndOfSales`, the code dispatch, the snapshot writer and one pass of the worker
  loop (`SellStep`). Its invariant ties the register to what the flights have
  sold and the segment to the register's encoding.
- `ManagerProgram` — the Manager process as a class: the one-shot
  `EndOfOperation`, the receive path, the departure callback, the snapshot poller
  and its threshold, and the two timers as running flags.
- `Int32`, `Snapshot` — `BitConverter.GetBytes` / `ToInt32` as little-endian
  two's complement and the 8-byte layout, with round trips in both directions.
- `SalesStats`, `ManagerStats`, `Decimal`, `StatText` — the two statistics
  registers and their `ToString` text.
- `Ids`, `Clients`, `Workers` — the class-wide id counters of clients and
  workers, and the worker's cancellation token.
- `Coordination` — the two processes together: each code is understood by its
  receiver, Manager reads back what Sales wrote, and the revenue Sales can ever
  publish (3 × (12 × 800 + 120 × 300) = 136800) stays below the 600000 threshold,
  so a poll of a running Sales process never ends the operation with TooRich.

Sends are appended to ghost `outbox` sequences and the printed end-of-program
reasons to ghost `endLog` sequences.

## Model

| member | source | states |
|---|---|---|
| Int32.Wrap | AirSalesR-masterProject/Sales/Program.cs:145-146 | the result of C# unchecked int addition: congruent to the exact sum modulo 2^32 and equal to it whenever it fits in an int |
| Int32.LittleEndian | AirSalesR-masterProject/Sales/Program.cs:94-95 | the n-byte little-endian image of a number has n bytes |
| Int32.LittleEndianValue | AirSalesR-masterProject/Manager/Program.cs:134-135 | the number n little-endian bytes denote is below 256^n |
| Int32.ValueOfLittleEndian | AirSalesR-masterProject/Sales/Program.cs:94-95 | reading back the little-endian bytes of a number below 256^n gives the number |
| Int32.LittleEndianOfValue | AirSalesR-masterProject/Manager/Program.cs:134-135 | writing back the number any byte string denotes gives the same bytes |
| Int32.GetBytes | AirSalesR-masterProject/Sales/Program.cs:94-95 | BitConverter.GetBytes of an int is four bytes |
| Int32.ToInt32 | AirSalesR-masterProject/Manager/Program.cs:134-135 | the int read at an offset is negative exactly when the top bit of its last byte is set |
| Int32.SignBit | AirSalesR-masterProject/Manager/Program.cs:134-135 | four bytes denote a value below 2^31 exactly when the last byte is below 0x80 |
| Int32.ToInt32GetBytes | AirSalesR-masterProject/Manager/Program.cs:134-135 | ToInt32 of GetBytes(v) is v for every int v |
| Int32.GetBytesToInt32 | AirSalesR-masterProject/Sales/Program.cs:94-95 | GetBytes of ToInt32 of any four bytes gives those bytes back |
| Snapshot.Encode | AirSalesR-masterProject/Sales/Program.cs:94-98 | the snapshot is eight bytes: revenue bytes at offset 0, clients bytes at offset 4 |
| Snapshot.ZeroSnapshot | AirSalesR-masterProject/Sales/Program.cs:29 | a zero-filled segment holds the snapshot of zero revenue and zero clients |
| Snapshot.DecodeEncode | AirSalesR-masterProject/Manager/Program.cs:131-135 | Manager's decode of bytes 0..3 and 4..7 recovers exactly the revenue and clients Sales encoded |
| Snapshot.Decode | AirSalesR-masterProject/Manager/Program.cs:131-135 | Manager's read of revenue from bytes 0..3 and clients from bytes 4..7: each value is negative exactly when the top bit of its last byte is set; DecodeEncode and EncodeDecode make it the inverse of Encode |
| Snapshot.EncodeDecode | AirSalesR-masterProject/Sales/Program.cs:94-98 | every 8-byte content is the encoding of what is decoded from it |
| Decimal.DigitChar | AirSalesR-masterProject/Sales/SalesStat.cs:48-51 | a digit below ten becomes the character of that digit |
| Decimal.NatToDecimal | AirSalesR-masterProject/Sales/SalesStat.cs:48-51 | a natural renders as a non-empty string of digits with no leading zero |
| Decimal.DecimalValueOfNatToDecimal | AirSalesR-masterProject/Sales/SalesStat.cs:48-51 | the digits of n denote n |
| Decimal.IntToDecimal | AirSalesR-masterProject/Sales/SalesStat.cs:48-51 | an int renders as digits with a leading minus sign exactly when it is negative |
| Decimal.NatToDecimalInjective | AirSalesR-masterProject/Sales/SalesStat.cs:48-51 | distinct naturals render differently |
| Decimal.IntToDecimalInjective | AirSalesR-masterProject/Sales/SalesStat.cs:48-51 | distinct ints render differently |
| StatText.RenderInjective | AirSalesR-masterProject/Sales/SalesStat.cs:48-51 | the text "TotalClientsServed=c, TotalRevenue=r" determines both c and r |
| StatText.RenderLayout | AirSalesR-masterProject/Manager/SalesStat.cs:69-72 | the text that `Render` builds for both registers' ToString starts with "TotalClientsServed=" and the clients count, followed by ", TotalRevenue=", and ends with the revenue in decimal |
| StatText.FirstComma | AirSalesR-masterProject/Sales/SalesStat.cs:48-51 | proof helper for RenderInjective, with no counterpart in the source: the first comma position lies within the text |
| StatText.FirstCommaAfter | AirSalesR-masterProject/Sales/SalesStat.cs:48-51 | proof helper for RenderInjective: after a comma-free prefix followed by a comma, the first comma comes right after the prefix |
| StatText.SplitAtComma | AirSalesR-masterProject/Sales/SalesStat.cs:48-51 | proof helper for RenderInjective: equal texts made of a comma-free prefix and a comma-led rest have equal prefixes and equal rests |
| Ids.IdCounter.constructor | AirSalesR-masterProject/Sales/Client.cs:8 | the counter starts at 1 with nothing issued |
| Ids.IdCounter.Take | AirSalesR-masterProject/Sales/Client.cs:22-25 | the id taken is the current counter, the counter goes up by one, and the id exceeds every id issued before |
| Ids.IssuedDistinct | AirSalesR-masterProject/Sales/Client.cs:24 | ids issued earlier are strictly smaller, so no two are equal |
| Clients.Client.constructor | AirSalesR-masterProject/Sales/Client.cs:20-26 | a new client's id is the counter's value, the counter moves on by one, and the first client gets id 1 |
| Workers.Worker.constructor | AirSalesR-masterProject/Sales/Worker.cs:23-30 | a new worker's id is the counter's value, the counter moves on by one, and the token is the one passed in |
| Workers.CreateWorkers | AirSalesR-masterProject/Sales/Program.cs:178-186 | n workers created in turn get consecutive ids and all hold the same token |
| Flights.Cost | AirSalesR-masterProject/Sales/Flight.cs:31-36 | cost is 0, 800 or 300; 0 exactly when both classes are sold out; a class is only charged when it has seats; the coin picks first class (true) or economy (false) whenever that class has a seat |
| Flights.DecrementCharged | AirSalesR-masterProject/Sales/Flight.cs:37-38 | the decrement lowers only the counter of the class whose price was charged, by one seat, leaves the other counter unchanged, and changes nothing when the cost is 0 |
| Flights.BookingStep | AirSalesR-masterProject/Sales/Flight.cs:31-39 | one attempt keeps the counters non-negative and removes one seat exactly when it succeeds |
| Flights.RunBound | AirSalesR-masterProject/Sales/Flight.cs:18-39 | over any sequence of attempts the counters stay non-negative and never grow, the seat total drops by exactly one per success, and successes never exceed the seats |
| Flights.Flight.constructor | AirSalesR-masterProject/Sales/Flight.cs:18-19 | a new flight has 12 first-class and 120 economy seats and no attempts |
| Flights.Flight.TryBookSeat | AirSalesR-masterProject/Sales/Flight.cs:27-41 | the cost is the booking rule's, the result is true exactly when the cost is not 0, only the charged class loses one seat, the counters stay within 0 and the initial seats, and the success count of the recorded history goes up by one exactly on success |
| Flights.SoldAtMostInitial | AirSalesR-masterProject/Sales/Flight.cs:18-39 | over a flight's whole history its counters are non-negative, there are at most 12 + 120 successes, and the seat total is the initial total minus the successes |
| SalesStats.SalesStat.constructor | AirSalesR-masterProject/Sales/SalesStat.cs:5-27 | both counters start at 0 |
| SalesStats.SalesStat.SetTotalClientsServed | AirSalesR-masterProject/Sales/SalesStat.cs:9-24 | after setting clients served to v it reads v and revenue is unchanged |
| SalesStats.SalesStat.SetTotalRevenue | AirSalesR-masterProject/Sales/SalesStat.cs:29-44 | after setting revenue to v it reads v and clients served is unchanged |
| SalesStats.SalesStat.ToString | AirSalesR-masterProject/Sales/SalesStat.cs:48-51 | the text is `Render` of the register's clients and revenue, so by RenderLayout it is "TotalClientsServed=", the clients count, ", TotalRevenue=" and the revenue; it starts with the clients label, and by RenderInjective only the register's own two values render to it |
| ManagerStats.SalesStat.constructor | AirSalesR-masterProject/Manager/SalesStat.cs:19-42 | both counters start at 0 |
| ManagerStats.SalesStat.SetTotalClientsServed | AirSalesR-masterProject/Manager/SalesStat.cs:24-40 | after setting clients served to v it reads v and revenue is unchanged |
| ManagerStats.SalesStat.SetTotalRevenue | AirSalesR-masterProject/Manager/SalesStat.cs:47-63 | after setting revenue to v it reads v and clients served is unchanged |
| ManagerStats.SalesStat.ToString | AirSalesR-masterProject/Manager/SalesStat.cs:69-72 | the text is `Render` of the mirror's clients and revenue, so by RenderLayout it is "TotalClientsServed=", the clients count, ", TotalRevenue=" and the revenue; it starts with the clients label, and by RenderInjective only the mirror's own two values render to it |
| SalesProgram.RequestedReason | AirSalesR-masterProject/Sales/Program.cs:64-85 | a payload asks for TooRich exactly when it is the single byte 0x7A and for Departure exactly when it is the single byte 0x5D; nothing asks for SoldOut |
| SalesProgram.FirstAvailable | AirSalesR-masterProject/Sales/Program.cs:125-132 | the first flight with a seat: every flight before it is sold out, and it has a seat unless it is past the end |
| SalesProgram.SoldBound | AirSalesR-masterProject/Sales/Program.cs:145-146 | the revenue and clients served of flights within their initial seats are non-negative and at most what every flight sold out would give |
| SalesProgram.SoldUpdate | AirSalesR-masterProject/Sales/Program.cs:145-146 | changing one flight's counters moves the totals by that flight's difference only |
| SalesProgram.SaleAdds | AirSalesR-masterProject/Sales/Program.cs:145-146 | a successful booking adds its cost to the flight's takings and one to its seats sold |
| SalesProgram.SaleTotals | AirSalesR-masterProject/Sales/Program.cs:140-146 | a sale on one flight raises revenue by exactly the cost and clients by exactly one, and both stay within the sold-out bound |
| SalesProgram.NothingSold | AirSalesR-masterProject/Sales/Program.cs:22-26 | flights at their initial seats have taken nothing and served nobody |
| SalesProgram.CountersOf | AirSalesR-masterProject/Sales/Program.cs:24-26 | the counters of the flight list, one per flight in list order |
| SalesProgram.WriteArray | AirSalesR-masterProject/Sales/Program.cs:97-98 | the bytes land at the offset and every other byte of the segment is unchanged |
| SalesProgram.NewSegment | AirSalesR-masterProject/Sales/Program.cs:29 | a fresh 4096-byte segment whose first eight bytes are the snapshot of zero revenue and zero clients |
| SalesProgram.NewFlights | AirSalesR-masterProject/Sales/Program.cs:24-26 | n distinct fresh flights, each at its initial seats |
| SalesProgram.SalesProcess.constructor | AirSalesR-masterProject/Sales/Program.cs:13-35 | three flights at their initial seats, the register and the segment agree with them, the queue is empty, nothing has ended and no manager is connected |
| SalesProgram.SalesProcess.OnClientConnected | AirSalesR-masterProject/Sales/Program.cs:58-62 | a manager connection is recorded and nothing else changes |
| SalesProgram.SalesProcess.EndOfSales | AirSalesR-masterProject/Sales/Program.cs:152-176 | the first call ends sales, cancels, stops the client factory and logs its reason, sending 0x9E only for SoldOut with a manager connected; later calls change nothing; the flights are never touched |
| SalesProgram.SalesProcess.OnDataReceived | AirSalesR-masterProject/Sales/Program.cs:64-85 | 0x7A ends sales with TooRich, 0x5D with Departure, subject to the first reason winning; a winning code also cancels and stops the client factory; any other payload leaves the termination state and the factory unchanged; nothing is sent |
| SalesProgram.SalesProcess.StartClientFactory | AirSalesR-masterProject/Sales/Program.cs:195-204 | the client factory runs and nothing else changes |
| SalesProgram.SalesProcess.CreateClient | AirSalesR-masterProject/Sales/Program.cs:188-193 | a fresh client whose id is the client counter's value joins the back of the queue, the counter moves on by one and records that id as issued; with the invariant that the queue stays in creation order, any two waiting clients have different ids |
| SalesProgram.SalesProcess.StartWorkerThreads | AirSalesR-masterProject/Sales/Program.cs:178-186 | five workers with consecutive ids, all holding the process's token, and the worker counter moves on by five |
| SalesProgram.SalesProcess.UpdateSharedMemory | AirSalesR-masterProject/Sales/Program.cs:87-104 | the first eight bytes of the segment become the encoding of the register, and the rest is unchanged |
| SalesProgram.SalesProcess.RecordSale | AirSalesR-masterProject/Sales/Program.cs:145-148 | revenue grows by the cost and clients served by one (as int additions) and the segment is republished |
| SalesProgram.SalesProcess.TryFlight | AirSalesR-masterProject/Sales/Program.cs:127-131 | one iteration of the foreach: flight k books at the booking rule's cost, only its counters change, and only it records the attempt |
| SalesProgram.CreationOrderIds | AirSalesR-masterProject/Sales/Client.cs:24 | in a queue in creation order every id is below the counter and ids strictly increase, so no two waiting clients share an id |
| SalesProgram.CreationOrderTail | AirSalesR-masterProject/Sales/Program.cs:116 | TryDequeue's removal of the head keeps the rest of the queue in creation order |
| SalesProgram.SalesProcess.BookFirstAvailable | AirSalesR-masterProject/Sales/Program.cs:122-132 | flights are tried in list order and the first with a seat books one; it is the only flight whose counters change, flights after it get no attempt, and when none has a seat the cost is 0 and nothing changes |
| SalesProgram.SalesProcess.SellStep | AirSalesR-masterProject/Sales/Program.cs:114-149 | once sales have ended, the loop stops with nothing changed. With an empty queue it waits with nothing changed, the segment included. Otherwise the next client leaves the queue and the loop goes on exactly when a flight had a seat. If no flight had one, sales end with SoldOut, the client factory stops, 0x9E goes out when a manager is connected, and the flights, statistics and segment are unchanged. If a flight had one, the first such flight sells a seat at the booking rule's cost, revenue grows by that cost and clients served by one, the client factory keeps its state, and only the segment's first eight bytes are rewritten |
| SalesProgram.SalesProcess.ServeClient | AirSalesR-masterProject/Sales/Program.cs:122-148 | if no flight has a seat, sales end with SoldOut, the client factory stops, and the statistics and the segment are unchanged. Otherwise the first available flight sells a seat, revenue grows by its cost and clients served by one, the client factory keeps its state, and the segment beyond its first eight bytes is unchanged. Either way the invariant is kept: the register equals the flights' totals and the segment holds the register's encoding |
| SalesProgram.SalesProcess.CompleteSale | AirSalesR-masterProject/Sales/Program.cs:140-148 | after a booking the register grows by exactly the cost and one client and again matches the flights and the segment, whose bytes beyond the snapshot are unchanged |
| SalesProgram.SalesProcess.CountersWithinInitial | AirSalesR-masterProject/Sales/Flight.cs:31-38 | every flight's counters lie between 0 and its initial seats |
| ManagerProgram.ManagerReason | AirSalesR-masterProject/Manager/Program.cs:64-82 | a payload ends the operation exactly when it is the single byte 0x9E, and only ever with SoldOut |
| ManagerProgram.ManagerProcess.constructor | AirSalesR-masterProject/Manager/Program.cs:17-60 | after start-up both timers run, nothing has ended or been sent and the mirror is at zero |
| ManagerProgram.ManagerProcess.OnDataReceived | AirSalesR-masterProject/Manager/Program.cs:64-82 | a single 0x9E ends the operation with SoldOut and stops both timers unless it has already ended; every other payload, and any payload after the end, changes nothing; nothing is sent |
| ManagerProgram.ManagerProcess.StopTimers | AirSalesR-masterProject/Manager/Program.cs:84-88 | both timers are stopped and nothing else changes |
| ManagerProgram.ManagerProcess.EndOfOperation | AirSalesR-masterProject/Manager/Program.cs:90-107 | the first call ends the operation, stops both timers and prints its reason; later calls change nothing |
| ManagerProgram.ManagerProcess.DepartureTimerOnElapsed | AirSalesR-masterProject/Manager/Program.cs:109-120 | unless the operation has ended, 0x5D is sent and the operation ends with Departure; after the end nothing is sent |
| ManagerProgram.ManagerProcess.ReadMmfEverySecond | AirSalesR-masterProject/Manager/Program.cs:122-164 | the mirror takes revenue from bytes 0..3 and clients from bytes 4..7; from 600000 on 0x7A is sent and TooRich requested, below it nothing is sent or ended; a failed read changes nothing |
| ManagerProgram.ManagerProcess.MmfTimerElapsed | AirSalesR-masterProject/Manager/Program.cs:52-55 | while the timer runs, a tick is ReadMmfEverySecond: the mirror takes the decoded snapshot, and from 600000 on 0x7A is sent and the operation ends with TooRich. A stopped timer, or a failed read, changes nothing. After the end nothing is sent, and at most one code is ever sent, matching the reason |
| ManagerProgram.ManagerProcess.DepartureTimerElapsed | AirSalesR-masterProject/Manager/Program.cs:57-60 | the single-shot timer stops itself; it sends 0x5D and ends with Departure only if the operation had not ended, and at most one code is ever sent; a tick on a stopped timer changes neither the end state, the sends, the log nor the poller |
| Coordination.CodesAgree | AirSalesR-masterProject/Sales/Program.cs:9-11 | Sales understands 0x5D and 0x7A as Departure and TooRich and ignores 0x9E; Manager understands 0x9E as SoldOut and ignores the other two |
| Coordination.RevenueBelowThreshold | AirSalesR-masterProject/Manager/Program.cs:21 | three flights within their seats take at most 136800, below the 600000 threshold |
| Coordination.SalesNeverTooRich | AirSalesR-masterProject/Manager/Program.cs:142-147 | the revenue a running Sales process publishes is never negative and never reaches the threshold |
| Coordination.SnapshotReadBack | AirSalesR-masterProject/Manager/Program.cs:131-135 | decoding the Sales segment gives exactly the Sales register |
| Coordination.PollSales | AirSalesR-masterProject/Manager/Program.cs:122-147 | a Manager poll of a running Sales process mirrors its statistics exactly and neither sends a code nor ends the operation |

## Left out

- Threads, `lock` statements, `ConcurrentQueue`, `CancellationTokenSource` and `Thread.Sleep`: each handler, callback or worker-loop pass is one atomic method. The queue is a sequence and cancellation is a flag. Interleavings between the five workers and the callbacks are not modelled.
- `System.Timers.Timer` scheduling and the random client-arrival interval: the factory is a running flag, `CreateClient` is one tick, and the Manager timers are running flags with explicit tick methods.
- `Random.Shared`: each booking attempt's draw is a `bool` input (true means an even draw, which tries first class).
- The SuperSimpleTcp server and client: sends are appended to a ghost outbox; receiving is a method taking the payload. On the Manager side the client is always present once the timers run, so the null check on `tcpClient` is not modelled.
- `MemoryMappedFile`, the named mutex and the view accessor: the segment is an array of bytes that Manager reads directly; `CreateOrOpen` is assumed to create a fresh zero-filled segment (an existing one with old content is not modelled), and a failing `WaitOne`/`ReleaseMutex` is not modelled.
- Console output, `PrintWithLock`, the start-up handshake (`ReadKey`, `Sleep(3000)`, the `OpenExisting` failure path and the failed `Connect`): I/O with no state of its own. The printed end-of-program reason is kept as a ghost log.
- The unused `localRevenue` / `localClientsServed` locals of `Sell`: they have no observable effect.
- SalesProgram.SalesProcess.SellStep: models one pass of `Sell`'s `while` loop, not the loop. The loop leaves on the `hasEnded`/cancellation test and on the `break` after SoldOut, which SellStep reports by returning false; while the queue stays empty it may spin forever, so it is not a terminating method here.
- SalesProgram.SalesProcess.SellStep: makes a whole pass atomic. In the source, `TotalRevenue += cost` and `TotalClientsServed++` each read the register under its lock and write it under a second acquisition. Two workers can therefore lose an update, and the published revenue can fall below what the flights took. The invariant "register equals the flights' totals" relies on this atomicity and does not hold for the source under concurrency. The same applies to SalesProgram.SalesProcess.ServeClient.
- SalesProgram.SalesProcess.ServeClient: see the line above; the bookings, the statistics update and the publish form one step.
- ManagerProgram.ManagerProcess.DepartureTimerElapsed: the callback is one step. In the source only the `operationEnded` check is locked. A 0x9E handled between that check and the send of 0x5D ends the operation with SoldOut and still lets 0x5D go out. So "at most one code, matching the reason" (`SentOnce`) holds only for atomic callbacks.
- SalesProgram.SalesProcess.EndOfSales: one step. In the source only the check-and-set of `hasEnded` is locked; `cts.Cancel()`, the factory stop, the log line and the send of 0x9E follow outside the lock, so a worker or the factory can still act between the set and the cancel. The model does not capture that window.
- ManagerProgram.ManagerProcess.EndOfOperation: one step. In the source `operationEnded = true` is set under the lock and `StopTimers()` runs after it. A mmfTimer tick in between runs `ReadMmfEverySecond`, which never checks `operationEnded`, and can still send 0x7A after the end. The same window lies between the set and `StopTimers()` in ManagerProgram.ManagerProcess.OnDataReceived, where it allows 0x7A after a SoldOut end. In the model a stopped timer delivers no tick, so `SentOnce` does not see this.
- ManagerProgram.ManagerProcess.OnDataReceived: see the line above.
- ManagerProgram.ManagerProcess.MmfTimerElapsed: the same gap. An end that comes between the timer's elapse and the read is not modelled, and in the source the read then still sends 0x7A if the threshold is reached.
- ManagerProgram.ManagerProcess.constructor: models the state after a successful start-up with both timers already running; a 0x9E arriving between `Connect` and the timers' `Start` (which would leave the timers running after the end) is outside the model.
- Ids.IdCounter.Take: the counter is an unbounded integer; the 32-bit wrap-around of `_id++` after 2^31 constructions is not modelled.
- Decimal.IntToDecimal: C# `int.ToString()` takes the minus sign from the current culture; the model fixes it to the ASCII '-'.

=== FILE: client.dfy ===
/** A client who wants to buy a ticket; its id is fixed at construction. */
module Clients {
  import opened Ids

  class Client {
    /** Get-only: never changes after construction. */
    const id: int

    /** `new Client()`: take the current class-wide counter value as the id. */
    constructor (counter: IdCounter)
      requires counter.Valid()
      modifies counter
      ensures counter.Valid()
      ensures id == old(counter.next) && counter.next == old(counter.next) + 1
      ensures counter.issued == old(counter.issued) + [id]
      ensures id == |counter.issued|
    {
      var taken := counter.Take();
      id := taken;
    }
  }
}

=== FILE: control_codes.dfy ===
/** Values shared by the Sales and Manager processes: bytes, the one-byte control
    codes exchanged over the control socket, and the termination reasons. */
module ControlCodes {

  /** One byte on the control socket or in the shared memory segment. */
  type Byte = x: int | 0 <= x < 256

  /** Why a process ends its operation. */
  datatype Reason = Departure | TooRich | SoldOut

  /** Manager -> Sales: the departure timer elapsed. */
  const DepartureCode: Byte := 0x5D
  /** Manager -> Sales: the revenue threshold was reached. */
  const WeAreTooRichNowCode: Byte := 0x7A
  /** Sales -> Manager: no flight had a seat left for a client. */
  const AllFlightsSoldOutCode: Byte := 0x9E
}

=== FILE: coordination.dfy ===
/** How the two processes fit together: the codes each one sends are the codes
    the other one understands, the snapshot Sales publishes is what Manager reads
    back, and the revenue three flights can ever take stays below Manager's
    threshold. */
module Coordination {
  import opened ControlCodes
  import opened Options
  import opened Snapshot
  import opened Flights
  import opened SalesProgram
  import opened ManagerProgram

  /** Each code is understood by the process it is sent to, with the reason it
      is sent for, and ignored by the process that sends it. */
  lemma CodesAgree()
    ensures RequestedReason([DepartureCode]) == Some(Departure)
    ensures RequestedReason([WeAreTooRichNowCode]) == Some(TooRich)
    ensures ManagerReason([AllFlightsSoldOutCode]) == Some(SoldOut)
    ensures RequestedReason([AllFlightsSoldOutCode]) == None
    ensures ManagerReason([DepartureCode]) == None
    ensures ManagerReason([WeAreTooRichNowCode]) == None
  {
  }

  /** Whatever the flights have sold, their takings stay below the threshold:
      three flights sold out bring 3 * (12 * 800 + 120 * 300) = 136800. */
  lemma RevenueBelowThreshold(cs: seq<Seats>)
    requires |cs| == NFlights
    requires forall i :: 0 <= i < |cs| ==> WithinInitial(cs[i])
    ensures 0 <= Revenue(cs) <= NFlights * MaxFlightRevenue < WeAreTooRichThreshold
  {
    SoldBound(cs);
  }

  /** The revenue Sales publishes never reaches the threshold. */
  lemma SalesNeverTooRich(p: SalesProcess)
    requires p.Valid()
    ensures 0 <= p.salesStat.totalRevenue < WeAreTooRichThreshold
  {
    p.CountersWithinInitial();
    RevenueBelowThreshold(p.Counters());
  }

  /** Reading the Sales segment gives back the register Sales published. */
  lemma SnapshotReadBack(p: SalesProcess)
    requires p.Valid()
    ensures Decode(p.memory[..Size]) == Stats(p.salesStat.totalRevenue, p.salesStat.totalClientsServed)
  {
    DecodeEncode(Stats(p.salesStat.totalRevenue, p.salesStat.totalClientsServed));
  }

  /** One poll of a running Sales process by Manager: the mirror takes Sales's
      statistics, and since they are below the threshold nothing is sent and
      the operation does not end. */
  method PollSales(m: ManagerProcess, p: SalesProcess)
    requires m.Valid() && p.Valid()
    modifies m, m.stats
    ensures m.Valid() && p.Valid()
    ensures m.stats.totalRevenue == p.salesStat.totalRevenue
    ensures m.stats.totalClientsServed == p.salesStat.totalClientsServed
    ensures m.outbox == old(m.outbox) && m.endLog == old(m.endLog)
    ensures m.operationEnded == old(m.operationEnded)
  {
    SnapshotReadBack(p);
    SalesNeverTooRich(p);
    m.ReadMmfEverySecond(p.memory);
  }
}

=== FILE: decimal.dfy ===
/** Decimal rendering of integers as C# `int.ToString()` produces it: an optional
    ASCII minus sign followed by digits without leading zeros. */
module Decimal {

  predicate IsDigit(c: char) {
    '0' <= c <= '9'
  }

  function DigitChar(d: nat): (c: char)
    requires d < 10
    ensures IsDigit(c) && c as int - '0' as int == d
  {
    ('0' as int + d) as char
  }

  /** The decimal digits of n, most significant first. */
  function NatToDecimal(n: nat): (s: string)
    ensures |s| >= 1
    ensures forall i :: 0 <= i < |s| ==> IsDigit(s[i])
    ensures s[0] == '0' ==> n == 0
  {
    if n < 10 then [DigitChar(n)] else NatToDecimal(n / 10) + [DigitChar(n % 10)]
  }

  /** The number a string of decimal digits denotes. */
  function DecimalValue(s: string): nat
    requires forall i :: 0 <= i < |s| ==> IsDigit(s[i])
  {
    if s == [] then 0
    else
      assert IsDigit(s[|s| - 1]);
      DecimalValue(s[..|s| - 1]) * 10 + (s[|s| - 1] as int - '0' as int)
  }

  lemma {:induction false} DecimalValueOfNatToDecimal(n: nat)
    ensures DecimalValue(NatToDecimal(n)) == n
  {
    var s := NatToDecimal(n);
    if n >= 10 {
      assert s[..|s| - 1] == NatToDecimal(n / 10);
      DecimalValueOfNatToDecimal(n / 10);
    }
  }

  /** `int.ToString()`. */
  function IntToDecimal(i: int): (s: string)
    ensures |s| >= 1
    ensures forall k :: 0 <= k < |s| ==> IsDigit(s[k]) || s[k] == '-'
    ensures s[0] == '-' <==> i < 0
  {
    if i < 0 then "-" + NatToDecimal(-i) else NatToDecimal(i)
  }

  /** Distinct naturals have distinct digit strings. */
  lemma NatToDecimalInjective(m: nat, n: nat)
    requires NatToDecimal(m) == NatToDecimal(n)
    ensures m == n
  {
    DecimalValueOfNatToDecimal(m);
    DecimalValueOfNatToDecimal(n);
  }

  /** Distinct integers render differently. */
  lemma IntToDecimalInjective(a: int, b: int)
    requires IntToDecimal(a) == IntToDecimal(b)
    ensures a == b
  {
    if a < 0 {
      assert b < 0;
      assert IntToDecimal(a)[1..] == NatToDecimal(-a);
      assert IntToDecimal(b)[1..] == NatToDecimal(-b);
      NatToDecimalInjective(-a, -b);
    } else {
      assert b >= 0;
      NatToDecimalInjective(a, b);
    }
  }
}

=== FILE: flight.dfy ===
/** A flight with two seat counters and the booking rule that picks a class by a
    coin flip and falls back to the other class when the chosen one is sold out. */
module Flights {

  const FirstClassCost: int := 800
  const EconomyClassCost: int := 300
  const InitialFirstClassSeats: int := 12
  const InitialEconomySeats: int := 120

  /** The two counters of a flight. */
  datatype Seats = Seats(first: int, economy: int)

  const Initial: Seats := Seats(InitialFirstClassSeats, InitialEconomySeats)

  function Total(s: Seats): int {
    s.first + s.economy
  }

  predicate NonNegative(s: Seats) {
    s.first >= 0 && s.economy >= 0
  }

  /** The cost TryBookSeat settles on; `coin` is the result of the random draw
      (true: try first class). 0 means nothing was booked. */
  function Cost(s: Seats, coin: bool): (cost: int)
    ensures cost == 0 || cost == FirstClassCost || cost == EconomyClassCost
    ensures cost == 0 <==> s.first <= 0 && s.economy <= 0
    ensures cost == FirstClassCost ==> s.first > 0
    ensures cost == EconomyClassCost ==> s.economy > 0
    ensures coin && s.first > 0 ==> cost == FirstClassCost
    ensures !coin && s.economy > 0 ==> cost == EconomyClassCost
  {
    if s.first <= 0 && s.economy <= 0 then 0
    else if coin then (if s.first <= 0 then EconomyClassCost else FirstClassCost)
    else (if s.economy <= 0 then FirstClassCost else EconomyClassCost)
  }

  /** The counters after a booking of the given cost: the matching counter loses
      one seat. */
  function Decrement(s: Seats, cost: int): Seats {
    Seats(s.first - (if cost == FirstClassCost then 1 else 0),
          s.economy - (if cost == EconomyClassCost then 1 else 0))
  }

  /** A decrement only ever lowers the counter of the class that was charged,
      by one seat, and leaves the other counter alone. */
  lemma DecrementCharged(s: Seats, cost: int)
    ensures Decrement(s, cost).first <= s.first && Decrement(s, cost).economy <= s.economy
    ensures cost != FirstClassCost ==> Decrement(s, cost).first == s.first
    ensures cost != EconomyClassCost ==> Decrement(s, cost).economy == s.economy
    ensures Total(Decrement(s, cost))
         == Total(s) - (if cost == FirstClassCost || cost == EconomyClassCost then 1 else 0)
  {
  }

  /** One booking attempt on counters that are not negative keeps them not
      negative and removes exactly one seat exactly when it succeeds. */
  lemma BookingStep(s: Seats, coin: bool)
    requires NonNegative(s)
    ensures NonNegative(Decrement(s, Cost(s, coin)))
    ensures Total(Decrement(s, Cost(s, coin))) == Total(s) - (if Cost(s, coin) != 0 then 1 else 0)
  {
  }

  /** The counters after a run of booking attempts, one coin per attempt, and how
      many of them succeeded. */
  function Run(s: Seats, coins: seq<bool>): (Seats, nat)
  {
    if coins == [] then (s, 0)
    else
      var (t, n) := Run(s, coins[..|coins| - 1]);
      var cost := Cost(t, coins[|coins| - 1]);
      (Decrement(t, cost), if cost != 0 then n + 1 else n)
  }

  /** Over any run from counters that are not negative, the counters stay not
      negative, the seat total drops by exactly one per success, and so there are
      at most as many successes as seats. */
  lemma {:induction false} RunBound(s: Seats, coins: seq<bool>)
    requires NonNegative(s)
    ensures NonNegative(Run(s, coins).0)
    ensures Run(s, coins).0.first <= s.first && Run(s, coins).0.economy <= s.economy
    ensures Total(Run(s, coins).0) == Total(s) - Run(s, coins).1
    ensures Run(s, coins).1 <= Total(s)
  {
    if coins != [] {
      RunBound(s, coins[..|coins| - 1]);
      BookingStep(Run(s, coins[..|coins| - 1]).0, coins[|coins| - 1]);
    }
  }

  predicate WithinInitial(s: Seats) {
    0 <= s.first <= InitialFirstClassSeats && 0 <= s.economy <= InitialEconomySeats
  }

  class Flight {
    var firstClassSeats: int
    var economyClassSeats: int
    /** The coins of every booking attempt made on this flight, in order. */
    ghost var attempts: seq<bool>

    function Counters(): Seats
      reads this
    {
      Seats(firstClassSeats, economyClassSeats)
    }

    /** Neither counter is ever negative or above its initial seats. */
    ghost predicate Valid()
      reads this
    {
      WithinInitial(Counters())
    }

    /** The counters are what the recorded attempts left of the initial seats. */
    ghost predicate Replays()
      reads this
    {
      Counters() == Run(Initial, attempts).0
    }

    /** Number of successful bookings so far. */
    ghost function Sold(): nat
      reads this
    {
      Run(Initial, attempts).1
    }

    constructor ()
      ensures Valid() && Replays() && attempts == []
      ensures Counters() == Initial
    {
      firstClassSeats := InitialFirstClassSeats;
      economyClassSeats := InitialEconomySeats;
      attempts := [];
    }

    /** TryBookSeat under the booking lock, with the random draw as `coin`. */
    method TryBookSeat(coin: bool) returns (booked: bool, cost: int)
      requires Valid()
      modifies this
      ensures Valid() && attempts == old(attempts) + [coin]
      ensures cost == Cost(old(Counters()), coin)
      ensures booked <==> cost != 0
      ensures Counters() == Decrement(old(Counters()), cost)
      ensures old(Replays()) ==> Replays() && Sold() == old(Sold()) + (if booked then 1 else 0)
    {
      var firstSold := firstClassSeats <= 0;
      var economySold := economyClassSeats <= 0;
      cost := if firstSold && economySold then 0
              else if coin then (if firstSold then EconomyClassCost else FirstClassCost)
              else (if economySold then FirstClassCost else EconomyClassCost);
      firstClassSeats := firstClassSeats - (if cost == FirstClassCost then 1 else 0);
      economyClassSeats := economyClassSeats - (if cost == EconomyClassCost then 1 else 0);
      attempts := attempts + [coin];
      assert attempts[..|attempts| - 1] == old(attempts);
      booked := cost != 0;
    }
  }

  /** Over the whole history of a flight, its counters never go negative, every
      success removes exactly one seat, and there are at most 12 + 120 successes. */
  lemma SoldAtMostInitial(f: Flight)
    requires f.Replays()
    ensures NonNegative(f.Counters())
    ensures f.Sold() <= Total(Initial)
    ensures Total(f.Counters()) == Total(Initial) - f.Sold()
  {
    RunBound(Initial, f.attempts);
  }
}

=== FILE: ids.dfy ===
/** The static `_id` counter that Client and Worker each keep: it starts at 1 and
    every construction takes its current value and increments it. */
module Ids {

  class IdCounter {
    /** The value the next construction takes (`_id`). */
    var next: int
    /** Ids handed out so far, in order. */
    ghost var issued: seq<int>

    ghost predicate Valid()
      reads this
    {
      next == |issued| + 1 &&
      forall i :: 0 <= i < |issued| ==> issued[i] == i + 1
    }

    constructor ()
      ensures Valid() && next == 1 && issued == []
    {
      next := 1;
      issued := [];
    }

    /** `Id = _id++` under the counter's lock. */
    method Take() returns (id: int)
      requires Valid()
      modifies this
      ensures Valid()
      ensures id == old(next) && next == old(next) + 1
      ensures issued == old(issued) + [id]
      ensures forall i :: 0 <= i < |old(issued)| ==> old(issued)[i] < id
    {
      id := next;
      next := next + 1;
      issued := issued + [id];
    }
  }

  /** In an issued sequence the k-th construction got id k + 1, so ids strictly
      increase in creation order and no two are equal. */
  lemma IssuedDistinct(c: IdCounter, i: int, j: int)
    requires c.Valid()
    requires 0 <= i < j < |c.issued|
    ensures c.issued[i] < c.issued[j]
  {
  }
}

=== FILE: int32.dfy ===
/** The 32-bit signed integers of the source (C# `int`) and the byte conversions of
    `BitConverter.GetBytes(int)` / `BitConverter.ToInt32(byte[], int)`, taken as
    little-endian two's complement. */
module Int32 {
  import opened ControlCodes

  const Two31: int := 0x8000_0000
  const Two32: int := 0x1_0000_0000

  type int32 = x: int | -0x8000_0000 <= x < 0x8000_0000

  /** C# unchecked `int` arithmetic: the int32 congruent to x modulo 2^32. */
  function Wrap(x: int): (r: int32)
    ensures (r - x) % Two32 == 0
    ensures -Two31 <= x < Two31 ==> r == x
  {
    var m := x % Two32;
    if m < Two31 then m else m - Two32
  }

  function Pow256(n: nat): (p: nat)
    ensures p > 0
  {
    if n == 0 then 1 else 256 * Pow256(n - 1)
  }

  /** The n low-order bytes of u, least significant first. */
  function LittleEndian(u: nat, n: nat): (bs: seq<Byte>)
    ensures |bs| == n
  {
    if n == 0 then [] else [u % 256] + LittleEndian(u / 256, n - 1)
  }

  /** The unsigned number whose little-endian bytes are bs. */
  function LittleEndianValue(bs: seq<Byte>): (u: nat)
    ensures u < Pow256(|bs|)
  {
    if bs == [] then 0
    else
      var rest := LittleEndianValue(bs[1..]);
      assert rest <= Pow256(|bs| - 1) - 1;
      assert 256 * rest <= 256 * Pow256(|bs| - 1) - 256;
      bs[0] + 256 * rest
  }

  lemma {:induction false} ValueOfLittleEndian(u: nat, n: nat)
    requires u < Pow256(n)
    ensures LittleEndianValue(LittleEndian(u, n)) == u
  {
    if n > 0 {
      var bs := LittleEndian(u, n);
      assert bs[1..] == LittleEndian(u / 256, n - 1);
      assert u / 256 < Pow256(n - 1);
      ValueOfLittleEndian(u / 256, n - 1);
    }
  }

  lemma {:induction false} LittleEndianOfValue(bs: seq<Byte>)
    ensures LittleEndian(LittleEndianValue(bs), |bs|) == bs
  {
    if bs != [] {
      var u := LittleEndianValue(bs);
      var rest := LittleEndianValue(bs[1..]);
      assert u == bs[0] + 256 * rest;
      assert u % 256 == bs[0] && u / 256 == rest;
      LittleEndianOfValue(bs[1..]);
    }
  }

  /** BitConverter.GetBytes(v): the four bytes of v in two's complement, least
      significant first. */
  function GetBytes(v: int32): (bs: seq<Byte>)
    ensures |bs| == 4
  {
    LittleEndian(if v < 0 then v + Two32 else v, 4)
  }

  /** BitConverter.ToInt32(buffer, offset): the int32 stored in the four bytes at
      offset. The top bit of the last byte is the sign. */
  function ToInt32(buffer: seq<Byte>, offset: nat): (v: int32)
    requires offset + 4 <= |buffer|
    ensures v < 0 <==> buffer[offset + 3] >= 0x80
  {
    var bs := buffer[offset..offset + 4];
    var u := LittleEndianValue(bs);
    SignBit(bs);
    if u < Two31 then u else u - Two32
  }

  /** A four-byte little-endian value is below 2^31 exactly when the top bit of
      its last byte is clear. */
  lemma SignBit(bs: seq<Byte>)
    requires |bs| == 4
    ensures LittleEndianValue(bs) < Two31 <==> bs[3] < 0x80
  {
    var low := LittleEndianValue(bs[..3]);
    assert LittleEndianValue(bs) == low + 0x100_0000 * (bs[3] as int) by {
      assert bs[1..][1..][1..] == [bs[3]];
      assert bs[..3][1..][1..] == [bs[2]];
    }
  }

  /** Reading back what GetBytes wrote yields the original value. */
  lemma {:induction false} ToInt32GetBytes(v: int32)
    ensures ToInt32(GetBytes(v), 0) == v
  {
    var u := if v < 0 then v + Two32 else v;
    assert Pow256(4) == Two32;
    ValueOfLittleEndian(u, 4);
    assert GetBytes(v)[0..4] == GetBytes(v);
  }

  /** Every four-byte pattern is what GetBytes writes for the value ToInt32 reads
      from it: the encoding is a bijection between int32 and four bytes. */
  lemma {:induction false} GetBytesToInt32(bs: seq<Byte>)
    requires |bs| == 4
    ensures GetBytes(ToInt32(bs, 0)) == bs
  {
    assert bs[0..4] == bs;
    var u := LittleEndianValue(bs);
    assert Pow256(4) == Two32;
    LittleEndianOfValue(bs);
  }
}

=== FILE: manager_program.dfy ===
/** The Manager process: the one-shot end-of-operation arbiter, its two timers,
    the listener for Sales's codes and the poller of the shared snapshot. Each
    event handler, timer callback and the one-shot EndOfOperation is one atomic
    method, including the parts of it outside its lock; the timers themselves,
    the socket and the named mutex are not modelled. */
module ManagerProgram {
  import opened ControlCodes
  import opened Options
  import opened Int32
  import opened Snapshot
  import opened ManagerStats

  /** Revenue from which the Manager asks Sales to stop. */
  const WeAreTooRichThreshold: int := 600000

  /** The reason a received payload ends the operation with, if any: only a
      one-byte payload holding AllFlightsSoldOut does. */
  function ManagerReason(data: seq<Byte>): (r: Option<Reason>)
    ensures r == Some(SoldOut) <==> data == [AllFlightsSoldOutCode]
    ensures r.Some? ==> r == Some(SoldOut)
  {
    if |data| == 1 && data[0] == AllFlightsSoldOutCode then Some(SoldOut) else None
  }

  class ManagerProcess {
    /** The local SalesStat mirror. */
    const stats: SalesStat
    var operationEnded: bool
    /** mmfTimer, the one-second poller (AutoReset). */
    var mmfTimerRunning: bool
    /** departureTimer, the single-shot departure alarm. */
    var departureTimerRunning: bool
    /** Codes sent to Sales. */
    ghost var outbox: seq<Byte>
    /** Terminal reasons printed as END OF PROGRAM. */
    ghost var endLog: seq<Reason>

    /** Once the operation has ended both timers are stopped, and exactly one
        reason has been printed. */
    ghost predicate Valid()
      reads this
    {
      (operationEnded ==> !mmfTimerRunning && !departureTimerRunning) &&
      |endLog| == (if operationEnded then 1 else 0)
    }

    /** At most one code has been sent, and it matches the reason that ended the
        operation. */
    ghost predicate SentOnce()
      reads this
    {
      outbox == [] ||
      (outbox == [DepartureCode] && endLog == [Departure]) ||
      (outbox == [WeAreTooRichNowCode] && endLog == [TooRich])
    }

    /** The process once start-up has succeeded: connected, both timers
        started, nothing ended, the mirror at zero. */
    constructor ()
      ensures Valid() && SentOnce() && fresh(stats)
      ensures !operationEnded && mmfTimerRunning && departureTimerRunning
      ensures outbox == [] && endLog == []
      ensures stats.totalRevenue == 0 && stats.totalClientsServed == 0
    {
      stats := new SalesStat();
      operationEnded := false;
      mmfTimerRunning := true;
      departureTimerRunning := true;
      outbox := [];
      endLog := [];
    }

    /** OnDataReceived: a one-byte AllFlightsSoldOut ends the operation unless it
        has already ended; every other payload is ignored. Nothing is sent. */
    method OnDataReceived(data: seq<Byte>)
      requires Valid()
      modifies this
      ensures Valid()
      ensures ManagerReason(data) == None || old(operationEnded) ==>
        operationEnded == old(operationEnded) && endLog == old(endLog) &&
        mmfTimerRunning == old(mmfTimerRunning) &&
        departureTimerRunning == old(departureTimerRunning)
      ensures ManagerReason(data) == Some(SoldOut) && !old(operationEnded) ==>
        operationEnded && !mmfTimerRunning && !departureTimerRunning && endLog == [SoldOut]
      ensures outbox == old(outbox)
    {
      if |data| != 1 {
        return;
      }
      var code := data[0];
      if code == AllFlightsSoldOutCode {
        if operationEnded {
          return;
        }
        operationEnded := true;
        StopTimers();
        endLog := endLog + [SoldOut];
      }
    }

    /** StopTimers: both timers stop; nothing else changes. */
    method StopTimers()
      modifies this
      ensures !mmfTimerRunning && !departureTimerRunning
      ensures operationEnded == old(operationEnded)
      ensures outbox == old(outbox) && endLog == old(endLog)
    {
      mmfTimerRunning := false;
      departureTimerRunning := false;
    }

    /** EndOfOperation(reason): the first call wins; it stops the timers and
        prints the reason. Every later call does nothing. */
    method EndOfOperation(reason: Reason)
      requires Valid()
      modifies this
      ensures Valid()
      ensures old(operationEnded) ==>
        operationEnded && endLog == old(endLog) &&
        mmfTimerRunning == old(mmfTimerRunning) &&
        departureTimerRunning == old(departureTimerRunning)
      ensures !old(operationEnded) ==>
        operationEnded && !mmfTimerRunning && !departureTimerRunning && endLog == [reason]
      ensures outbox == old(outbox)
    {
      if operationEnded {
        return;
      }
      operationEnded := true;
      StopTimers();
      endLog := endLog + [reason];
    }

    /** DepartureTimerOnElapsed: unless the operation has ended, send Departure
        to Sales and end with Departure. */
    method DepartureTimerOnElapsed()
      requires Valid()
      modifies this
      ensures Valid()
      ensures old(operationEnded) ==>
        outbox == old(outbox) && endLog == old(endLog) &&
        mmfTimerRunning == old(mmfTimerRunning) &&
        departureTimerRunning == old(departureTimerRunning)
      ensures !old(operationEnded) ==>
        operationEnded && !mmfTimerRunning && !departureTimerRunning &&
        outbox == old(outbox) + [DepartureCode] && endLog == [Departure]
      ensures operationEnded
    {
      if operationEnded {
        return;
      }
      outbox := outbox + [DepartureCode];
      EndOfOperation(Departure);
    }

    /** ReadMmfEverySecond: copy the snapshot's revenue and clients into the
        mirror and, from the threshold on, send WeAreTooRichNow and end with
        TooRich. A segment too small for the eight bytes makes the read throw,
        and the catch leaves everything as it was. */
    method ReadMmfEverySecond(segment: array<Byte>)
      requires Valid()
      modifies this, stats
      ensures Valid()
      ensures segment.Length >= Size ==>
        var read := Decode(segment[..Size]);
        stats.totalRevenue == read.revenue && stats.totalClientsServed == read.clients
      ensures segment.Length < Size ==>
        stats.totalRevenue == old(stats.totalRevenue) &&
        stats.totalClientsServed == old(stats.totalClientsServed)
      ensures segment.Length >= Size && Decode(segment[..Size]).revenue >= WeAreTooRichThreshold ==>
        operationEnded && outbox == old(outbox) + [WeAreTooRichNowCode] &&
        endLog == (if old(operationEnded) then old(endLog) else [TooRich]) &&
        !mmfTimerRunning && !departureTimerRunning
      ensures segment.Length < Size || Decode(segment[..Size]).revenue < WeAreTooRichThreshold ==>
        operationEnded == old(operationEnded) && outbox == old(outbox) && endLog == old(endLog) &&
        mmfTimerRunning == old(mmfTimerRunning) &&
        departureTimerRunning == old(departureTimerRunning)
    {
      if segment.Length < Size {
        return;
      }
      var buffer := segment[..Size];
      var revenue := ToInt32(buffer, RevenueOffset);
      var clients := ToInt32(buffer, ClientsOffset);
      stats.SetTotalRevenue(revenue);
      stats.SetTotalClientsServed(clients);
      if stats.totalRevenue >= WeAreTooRichThreshold {
        outbox := outbox + [WeAreTooRichNowCode];
        EndOfOperation(TooRich);
      }
    }

    /** One tick of mmfTimer: the callback runs only while the timer is
        running, so after the end nothing is read or sent. */
    method MmfTimerElapsed(segment: array<Byte>)
      requires Valid() && SentOnce()
      modifies this, stats
      ensures Valid() && SentOnce()
      ensures old(operationEnded) ==>
        outbox == old(outbox) && endLog == old(endLog) && operationEnded
      ensures old(mmfTimerRunning) && segment.Length >= Size ==>
        var read := Decode(segment[..Size]);
        stats.totalRevenue == read.revenue && stats.totalClientsServed == read.clients
      ensures old(mmfTimerRunning) && segment.Length >= Size &&
              Decode(segment[..Size]).revenue >= WeAreTooRichThreshold ==>
        operationEnded && outbox == [WeAreTooRichNowCode] && endLog == [TooRich] &&
        !mmfTimerRunning && !departureTimerRunning
      ensures !old(mmfTimerRunning) || segment.Length < Size ||
              Decode(segment[..Size]).revenue < WeAreTooRichThreshold ==>
        operationEnded == old(operationEnded) && outbox == old(outbox) && endLog == old(endLog) &&
        mmfTimerRunning == old(mmfTimerRunning) &&
        departureTimerRunning == old(departureTimerRunning)
      ensures !old(mmfTimerRunning) || segment.Length < Size ==>
        stats.totalRevenue == old(stats.totalRevenue) &&
        stats.totalClientsServed == old(stats.totalClientsServed)
    {
      if mmfTimerRunning {
        ReadMmfEverySecond(segment);
      }
    }

    /** The single elapse of departureTimer (AutoReset is false, so the timer
        stops itself), delivered only while it is running. */
    method DepartureTimerElapsed()
      requires Valid() && SentOnce()
      modifies this
      ensures Valid() && SentOnce() && !departureTimerRunning
      ensures old(operationEnded) ==>
        outbox == old(outbox) && endLog == old(endLog) && operationEnded
      ensures !old(operationEnded) && old(departureTimerRunning) ==>
        outbox == [DepartureCode] && endLog == [Departure]
      ensures !old(departureTimerRunning) ==>
        operationEnded == old(operationEnded) && outbox == old(outbox) && endLog == old(endLog) &&
        mmfTimerRunning == old(mmfTimerRunning)
    {
      if departureTimerRunning {
        departureTimerRunning := false;
        DepartureTimerOnElapsed();
      }
    }
  }
}

=== FILE: manager_stat.dfy ===
/** The Manager process's local mirror of the shared snapshot: the same register
    as on the Sales side, two int fields, each behind its own lock, with get/set
    properties. */
module ManagerStats {
  import opened Int32
  import opened StatText

  class SalesStat {
    var totalClientsServed: int32
    var totalRevenue: int32

    constructor ()
      ensures totalClientsServed == 0 && totalRevenue == 0
    {
      totalClientsServed := 0;
      totalRevenue := 0;
    }

    /** The TotalClientsServed setter: the revenue field is not touched. */
    method SetTotalClientsServed(value: int32)
      modifies this
      ensures totalClientsServed == value
      ensures totalRevenue == old(totalRevenue)
    {
      totalClientsServed := value;
    }

    /** The TotalRevenue setter: the clients field is not touched. */
    method SetTotalRevenue(value: int32)
      modifies this
      ensures totalRevenue == value
      ensures totalClientsServed == old(totalClientsServed)
    {
      totalRevenue := value;
    }

    /** "TotalClientsServed=<c>, TotalRevenue=<r>" with both values in decimal. */
    function ToString(): (s: string)
      reads this
      ensures s == Render(totalClientsServed, totalRevenue)
      ensures ClientsLabel <= s
      ensures forall c, r :: Render(c, r) == s ==> c == totalClientsServed && r == totalRevenue
    {
      var s := Render(totalClientsServed, totalRevenue);
      forall c, r | Render(c, r) == s
        ensures c == totalClientsServed && r == totalRevenue
      {
        RenderInjective(c, r, totalClientsServed, totalRevenue);
      }
      s
    }
  }
}

=== FILE: options.dfy ===
/** An optional value: what a received payload maps to when it is understood. */
module Options {
  datatype Option<T> = None | Some(value: T)
}

=== FILE: sales_program.dfy ===
/** The Sales process: flights, the statistics register, the client queue, the
    one-shot end-of-sales arbiter, the control-code listener and the writer of the
    shared snapshot. Each event handler, timer tick and the one-shot EndOfSales
    is one atomic method, including the parts of it outside its lock, and so is
    a whole pass of the worker loop (SellStep); threads, timers, the socket and
    the named mutex are not modelled. */
module SalesProgram {
  import opened ControlCodes
  import opened Options
  import opened Int32
  import opened Snapshot
  import opened Flights
  import opened SalesStats
  import opened Ids
  import opened Clients
  import opened Workers

  const NFlights: nat := 3
  const NWorkers: nat := 5

  /** The reason a received payload asks Sales to end with, if any: only a
      one-byte payload holding WeAreTooRichNow or Departure does. */
  function RequestedReason(data: seq<Byte>): (r: Option<Reason>)
    ensures r == Some(TooRich) <==> data == [WeAreTooRichNowCode]
    ensures r == Some(Departure) <==> data == [DepartureCode]
    ensures r != Some(SoldOut)
  {
    if |data| != 1 then None
    else if data[0] == WeAreTooRichNowCode then Some(TooRich)
    else if data[0] == DepartureCode then Some(Departure)
    else None
  }

  /** Index of the first flight with a seat in either class, or |cs| if every
      flight is sold out. */
  function FirstAvailable(cs: seq<Seats>): (k: nat)
    ensures k <= |cs|
    ensures forall j :: 0 <= j < k ==> cs[j].first <= 0 && cs[j].economy <= 0
    ensures k < |cs| ==> cs[k].first > 0 || cs[k].economy > 0
  {
    if cs == [] then 0
    else if cs[0].first > 0 || cs[0].economy > 0 then 0
    else 1 + FirstAvailable(cs[1..])
  }

  /** Money taken for the seats sold on a flight. */
  function SoldValue(s: Seats): int {
    (InitialFirstClassSeats - s.first) * FirstClassCost
      + (InitialEconomySeats - s.economy) * EconomyClassCost
  }

  /** Seats sold on a flight. */
  function SoldSeats(s: Seats): int {
    Total(Initial) - Total(s)
  }

  const MaxFlightRevenue: int := InitialFirstClassSeats * FirstClassCost
                                 + InitialEconomySeats * EconomyClassCost

  function Revenue(cs: seq<Seats>): int {
    if cs == [] then 0 else Revenue(cs[..|cs| - 1]) + SoldValue(cs[|cs| - 1])
  }

  function Served(cs: seq<Seats>): int {
    if cs == [] then 0 else Served(cs[..|cs| - 1]) + SoldSeats(cs[|cs| - 1])
  }

  /** Revenue and clients served over flights whose counters lie between zero and
      the initial seats are bounded by what every flight sold out would give. */
  lemma {:induction false} SoldBound(cs: seq<Seats>)
    requires forall i :: 0 <= i < |cs| ==> WithinInitial(cs[i])
    ensures 0 <= Revenue(cs) <= |cs| * MaxFlightRevenue
    ensures 0 <= Served(cs) <= |cs| * Total(Initial)
  {
    if cs != [] {
      SoldBound(cs[..|cs| - 1]);
    }
  }

  /** Changing one flight's counters changes the totals by that flight's
      difference alone. */
  lemma {:induction false} SoldUpdate(cs: seq<Seats>, k: nat, t: Seats)
    requires k < |cs|
    ensures Revenue(cs[k := t]) == Revenue(cs) - SoldValue(cs[k]) + SoldValue(t)
    ensures Served(cs[k := t]) == Served(cs) - SoldSeats(cs[k]) + SoldSeats(t)
  {
    var n := |cs| - 1;
    if k < n {
      assert cs[k := t][..n] == cs[..n][k := t];
      SoldUpdate(cs[..n], k, t);
    } else {
      assert cs[k := t][..n] == cs[..n];
    }
  }

  /** A successful booking adds its cost to the flight's takings and one seat to
      its sold seats. */
  lemma SaleAdds(s: Seats, coin: bool)
    requires Cost(s, coin) != 0
    ensures SoldValue(Decrement(s, Cost(s, coin))) == SoldValue(s) + Cost(s, coin)
    ensures SoldSeats(Decrement(s, Cost(s, coin))) == SoldSeats(s) + 1
  {
  }

  /** A sale on flight k moves the totals by exactly the cost and one client, and
      they stay within what every flight sold out would give. */
  lemma SaleTotals(cs: seq<Seats>, k: nat, coin: bool)
    requires k < |cs| && Cost(cs[k], coin) != 0
    requires forall i :: 0 <= i < |cs| ==> WithinInitial(cs[i])
    ensures var after := cs[k := Decrement(cs[k], Cost(cs[k], coin))];
      Revenue(after) == Revenue(cs) + Cost(cs[k], coin) &&
      Served(after) == Served(cs) + 1 &&
      0 <= Revenue(after) <= |cs| * MaxFlightRevenue &&
      0 <= Served(after) <= |cs| * Total(Initial)
  {
    var after := cs[k := Decrement(cs[k], Cost(cs[k], coin))];
    SaleAdds(cs[k], coin);
    SoldUpdate(cs, k, after[k]);
    SoldBound(after);
  }

  /** Before any booking, nothing has been sold. */
  lemma {:induction false} NothingSold(cs: seq<Seats>)
    requires forall i :: 0 <= i < |cs| ==> cs[i] == Initial
    ensures Revenue(cs) == 0 && Served(cs) == 0
  {
    if cs != [] {
      NothingSold(cs[..|cs| - 1]);
    }
  }

  /** The counters of a list of flights, in list order. */
  ghost function CountersOf(fs: seq<Flight>, frame: set<Flight>): (cs: seq<Seats>)
    requires forall i :: 0 <= i < |fs| ==> fs[i] in frame
    reads frame
    ensures |cs| == |fs|
    ensures forall i :: 0 <= i < |fs| ==> cs[i] == fs[i].Counters()
  {
    if fs == [] then [] else CountersOf(fs[..|fs| - 1], frame) + [fs[|fs| - 1].Counters()]
  }

  /** accessor.WriteArray(offset, bytes, 0, bytes.Length). */
  method WriteArray(mem: array<Byte>, offset: nat, bytes: seq<Byte>)
    requires offset + |bytes| <= mem.Length
    modifies mem
    ensures forall k :: 0 <= k < mem.Length ==>
      mem[k] == if offset <= k < offset + |bytes| then bytes[k - offset] else old(mem[k])
  {
    var i := 0;
    while i < |bytes|
      invariant 0 <= i <= |bytes|
      invariant forall k :: 0 <= k < mem.Length ==>
        mem[k] == if offset <= k < offset + i then bytes[k - offset] else old(mem[k])
    {
      mem[offset + i] := bytes[i];
      i := i + 1;
    }
  }

  /** The freshly created shared segment: all zero, which is the encoding of a
      snapshot with no revenue and no clients. */
  method NewSegment() returns (m: array<Byte>)
    ensures fresh(m) && m.Length == SegmentCapacity
    ensures m[..Size] == Encode(Stats(0, 0))
  {
    m := new Byte[SegmentCapacity](_ => 0);
    ZeroSnapshot();
    assert m[..Size] == seq(Size, _ => 0);
  }

  /** The loop that fills the flight list at start-up: n distinct new flights,
      each with its initial seats. */
  method NewFlights(n: nat) returns (fs: seq<Flight>, ghost frame: set<Flight>)
    ensures |fs| == n && forall a :: 0 <= a < n ==> fs[a] in frame
    ensures forall a, b :: 0 <= a < b < n ==> fs[a] != fs[b]
    ensures forall a :: 0 <= a < n ==> fresh(fs[a]) && fs[a].Valid() && fs[a].Counters() == Initial
  {
    fs := [];
    frame := {};
    var i := 0;
    while i < n
      invariant 0 <= i <= n && |fs| == i && forall a :: 0 <= a < i ==> fs[a] in frame
      invariant forall a, b :: 0 <= a < b < i ==> fs[a] != fs[b]
      invariant forall a :: 0 <= a < i ==> fresh(fs[a]) && fs[a].Valid() && fs[a].Counters() == Initial
    {
      var f := new Flight();
      fs := fs + [f];
      frame := frame + {f};
      i := i + 1;
    }
  }

  /** Clients in the order they were created: each id is below the next one in
      the sequence, and the last is below `next`, the counter's next id. */
  ghost predicate InCreationOrder(q: seq<Client>, next: int)
    decreases |q|
  {
    |q| == 0 || (q[|q| - 1].id < next && InCreationOrder(q[..|q| - 1], q[|q| - 1].id))
  }

  /** Every client in a sequence in creation order has an id below `next`, and
      the ids strictly increase along it, so no two clients share one. */
  lemma {:induction false} CreationOrderIds(q: seq<Client>, next: int)
    requires InCreationOrder(q, next)
    ensures forall i :: 0 <= i < |q| ==> q[i].id < next
    ensures forall i, j :: 0 <= i < j < |q| ==> q[i].id < q[j].id
    decreases |q|
  {
    if |q| > 0 {
      var init := q[..|q| - 1];
      CreationOrderIds(init, q[|q| - 1].id);
      assert forall i :: 0 <= i < |init| ==> q[i] == init[i];
    }
  }

  /** Dropping the head of the queue keeps the rest in creation order. */
  lemma {:induction false} CreationOrderTail(q: seq<Client>, next: int)
    requires InCreationOrder(q, next) && |q| > 0
    ensures InCreationOrder(q[1..], next)
    decreases |q|
  {
    if |q| > 1 {
      var init := q[..|q| - 1];
      CreationOrderTail(init, q[|q| - 1].id);
      assert init[1..] == q[1..][..|q[1..]| - 1];
    }
  }

  class SalesProcess {
    const flights: seq<Flight>
    const salesStat: SalesStat
    /** The named shared memory segment. */
    const memory: array<Byte>
    /** Client's class-wide id counter. */
    const clientIds: IdCounter
    /** Worker's class-wide id counter. */
    const workerIds: IdCounter
    /** The token of the process's cancellation source. */
    const token: CancellationToken

    var queue: seq<Client>
    var hasEnded: bool
    /** cts.Cancel() was called. */
    var cancelled: bool
    var clientFactoryRunning: bool
    /** managerConnection != null. */
    var managerConnected: bool
    /** Codes sent to Manager. */
    ghost var outbox: seq<Byte>
    /** Terminal reasons logged by EndOfSales. */
    ghost var endLog: seq<Reason>

    /** The flights as a set, the frame of the booking methods. */
    ghost const FlightSet: set<Flight>

    ghost predicate Framed() {
      forall i :: 0 <= i < |flights| ==> flights[i] in FlightSet
    }

    ghost function Counters(): seq<Seats>
      requires Framed()
      reads FlightSet
    {
      CountersOf(flights, FlightSet)
    }

    ghost predicate FlightsValid()
      reads FlightSet
    {
      Framed() &&
      (forall i, j :: 0 <= i < j < |flights| ==> flights[i] != flights[j]) &&
      (forall i :: 0 <= i < |flights| ==> flights[i].Valid())
    }

    /** Everything but the published statistics: the flight list, the id
        counters, the segment's size and the one-shot end-of-sales state. */
    ghost predicate Wired()
      reads this, memory, clientIds, workerIds, FlightSet
    {
      |flights| == NFlights && FlightsValid() &&
      clientIds.Valid() && workerIds.Valid() &&
      memory.Length == SegmentCapacity &&
      InCreationOrder(queue, clientIds.next) &&
      cancelled == hasEnded &&
      |endLog| == (if hasEnded then 1 else 0) &&
      (outbox == [] || (outbox == [AllFlightsSoldOutCode] && endLog == [SoldOut]))
    }

    /** The register holds the totals of what the flights have sold and the
        segment holds the register's snapshot. */
    ghost predicate Published()
      requires Framed()
      reads this, salesStat, memory, FlightSet
    {
      salesStat.totalRevenue == Revenue(Counters()) &&
      salesStat.totalClientsServed == Served(Counters()) &&
      memory.Length >= Size &&
      memory[..Size] == Encode(Stats(salesStat.totalRevenue, salesStat.totalClientsServed))
    }

    ghost predicate Valid()
      reads this, salesStat, memory, clientIds, workerIds, FlightSet
    {
      Wired() && Published()
    }

    /** The process after its top-level set-up: three fresh flights, a zeroed
        statistics register, a fresh zero-filled segment, no manager yet. */
    constructor ()
      ensures Valid() && fresh(memory) && fresh(salesStat)
      ensures forall i :: 0 <= i < NFlights ==> Counters()[i] == Initial
      ensures queue == [] && !hasEnded && !clientFactoryRunning && !managerConnected
      ensures outbox == [] && endLog == []
    {
      var segment := NewSegment();
      salesStat := new SalesStat();
      clientIds := new IdCounter();
      workerIds := new IdCounter();
      var fs, frame := NewFlights(NFlights);
      flights := fs;
      FlightSet := frame;
      memory := segment;
      token := CancellationToken(0);
      queue := [];
      hasEnded := false;
      cancelled := false;
      clientFactoryRunning := false;
      managerConnected := false;
      outbox := [];
      endLog := [];
      new;
      NothingSold(Counters());
    }

    /** TcpServerOnClientConnected. */
    method OnClientConnected()
      modifies this
      ensures managerConnected
      ensures hasEnded == old(hasEnded) && cancelled == old(cancelled) && queue == old(queue)
      ensures outbox == old(outbox) && endLog == old(endLog)
      ensures clientFactoryRunning == old(clientFactoryRunning)
    {
      managerConnected := true;
    }

    /** EndOfSales(reason): the first call wins; it cancels, stops the client
        factory, logs the reason and, for SoldOut with a manager connected, sends
        AllFlightsSoldOut. Every later call does nothing. */
    method EndOfSales(reason: Reason)
      requires Valid()
      modifies this
      ensures Valid()
      ensures old(hasEnded) ==>
        hasEnded && outbox == old(outbox) && endLog == old(endLog) &&
        clientFactoryRunning == old(clientFactoryRunning)
      ensures !old(hasEnded) ==>
        hasEnded && cancelled && !clientFactoryRunning && endLog == [reason] &&
        outbox == (if reason == SoldOut && managerConnected then [AllFlightsSoldOutCode] else [])
      ensures queue == old(queue) && managerConnected == old(managerConnected)
      ensures Counters() == old(Counters())
    {
      if hasEnded {
        return;
      }
      hasEnded := true;
      cancelled := true;
      clientFactoryRunning := false;
      endLog := endLog + [reason];
      if reason == SoldOut && managerConnected {
        outbox := outbox + [AllFlightsSoldOutCode];
      }
    }

    /** TcpServerOnDataReceived: a one-byte WeAreTooRichNow or Departure ends
        sales with that reason; anything else changes nothing. */
    method OnDataReceived(data: seq<Byte>)
      requires Valid()
      modifies this
      ensures Valid()
      ensures RequestedReason(data) == None ==>
        hasEnded == old(hasEnded) && outbox == old(outbox) && endLog == old(endLog) &&
        clientFactoryRunning == old(clientFactoryRunning)
      ensures RequestedReason(data).Some? ==>
        (hasEnded && endLog == (if old(hasEnded) then old(endLog) else [RequestedReason(data).value]))
      ensures RequestedReason(data).Some? && !old(hasEnded) ==> cancelled && !clientFactoryRunning
      ensures RequestedReason(data).Some? && old(hasEnded) ==>
        clientFactoryRunning == old(clientFactoryRunning)
      ensures outbox == old(outbox)
      ensures queue == old(queue) && managerConnected == old(managerConnected)
    {
      match RequestedReason(data) {
        case Some(reason) => EndOfSales(reason);
        case None =>
      }
    }

    /** StartClientFactory, without the timer and its random interval. */
    method StartClientFactory()
      modifies this
      ensures clientFactoryRunning
      ensures hasEnded == old(hasEnded) && cancelled == old(cancelled) && queue == old(queue)
      ensures outbox == old(outbox) && endLog == old(endLog)
      ensures managerConnected == old(managerConnected)
    {
      clientFactoryRunning := true;
    }

    /** CreateClient, one tick of the client factory: a new client with the next
        id joins the back of the queue. */
    method CreateClient()
      requires Valid()
      modifies this, clientIds
      ensures Valid()
      ensures |queue| == |old(queue)| + 1 && queue[..|old(queue)|] == old(queue)
      ensures fresh(queue[|old(queue)|]) && queue[|old(queue)|].id == old(clientIds.next)
      ensures clientIds.next == old(clientIds.next) + 1
      ensures clientIds.issued == old(clientIds.issued) + [queue[|old(queue)|].id]
      ensures hasEnded == old(hasEnded) && outbox == old(outbox) && endLog == old(endLog)
      ensures clientFactoryRunning == old(clientFactoryRunning)
      ensures managerConnected == old(managerConnected)
    {
      var client := new Client(clientIds);
      assert (queue + [client])[..|queue|] == queue;
      queue := queue + [client];
    }

    /** StartWorkerThreads without the threads: NWorkers workers sharing the
        process's token. */
    method StartWorkerThreads() returns (workers: seq<Worker>)
      requires Valid()
      modifies workerIds
      ensures Valid()
      ensures |workers| == NWorkers
      ensures forall i :: 0 <= i < NWorkers ==>
        workers[i].id == old(workerIds.next) + i && workers[i].token == token
      ensures workerIds.next == old(workerIds.next) + NWorkers
    {
      workers := CreateWorkers(workerIds, token, NWorkers);
    }

    /** UpdateSharedMemory: revenue bytes at offset 0, clients bytes at offset 4;
        the rest of the segment is untouched. */
    method UpdateSharedMemory()
      requires memory.Length == SegmentCapacity
      modifies memory
      ensures memory[..Size] == Encode(Stats(salesStat.totalRevenue, salesStat.totalClientsServed))
      ensures memory[Size..] == old(memory[Size..])
    {
      var revenueBytes := GetBytes(salesStat.totalRevenue);
      var clientsBytes := GetBytes(salesStat.totalClientsServed);
      WriteArray(memory, RevenueOffset, revenueBytes);
      WriteArray(memory, ClientsOffset, clientsBytes);
      assert memory[..Size] == revenueBytes + clientsBytes;
    }

    /** The statistics update after a sale in Sell (int addition wraps as C#'s
        unchecked arithmetic does), then UpdateSharedMemory. */
    method RecordSale(cost: int)
      requires memory.Length == SegmentCapacity
      modifies salesStat, memory
      ensures salesStat.totalRevenue == Wrap(old(salesStat.totalRevenue) + cost)
      ensures salesStat.totalClientsServed == Wrap(old(salesStat.totalClientsServed) + 1)
      ensures memory[..Size] == Encode(Stats(salesStat.totalRevenue, salesStat.totalClientsServed))
      ensures memory[Size..] == old(memory[Size..])
    {
      salesStat.SetTotalRevenue(Wrap(salesStat.totalRevenue + cost));
      salesStat.SetTotalClientsServed(Wrap(salesStat.totalClientsServed + 1));
      UpdateSharedMemory();
    }

    /** The foreach over the flights in Sell: try each in list order, one coin per
        attempt, and stop at the first that books a seat. Flights after it are
        not touched. */
    method BookFirstAvailable(coins: seq<bool>) returns (sold: bool, cost: int, k: nat)
      requires FlightsValid() && |coins| == |flights|
      modifies FlightSet
      ensures FlightsValid()
      ensures k == FirstAvailable(old(Counters()))
      ensures sold <==> k < |flights|
      ensures sold ==>
        (cost == Cost(old(Counters())[k], coins[k]) && cost != 0 &&
         Counters() == old(Counters())[k := Decrement(old(Counters())[k], cost)])
      ensures !sold ==> cost == 0 && Counters() == old(Counters())
      ensures forall j :: 0 <= j < |flights| ==>
        flights[j].attempts == old(flights[j].attempts) + (if j <= k then [coins[j]] else [])
    {
      sold, cost, k := false, 0, 0;
      while k < |flights|
        invariant 0 <= k <= |flights| && FlightsValid() && cost == 0
        invariant forall j :: 0 <= j < k ==> old(Counters())[j].first <= 0 && old(Counters())[j].economy <= 0
        invariant Counters() == old(Counters())
        invariant forall j :: 0 <= j < |flights| ==>
          flights[j].attempts == old(flights[j].attempts) + (if j < k then [coins[j]] else [])
      {
        var booked, c := TryFlight(k, coins[k]);
        cost := c;
        if booked {
          sold := true;
          return;
        }
        k := k + 1;
      }
    }

    /** One attempt of the foreach in Sell: flight k tries to book a seat and
        no other flight is touched. */
    method TryFlight(k: nat, coin: bool) returns (booked: bool, cost: int)
      requires FlightsValid() && k < |flights|
      modifies flights[k]
      ensures FlightsValid()
      ensures cost == Cost(old(Counters())[k], coin) && (booked <==> cost != 0)
      ensures Counters() == old(Counters())[k := Decrement(old(Counters())[k], cost)]
      ensures forall j :: 0 <= j < |flights| ==>
        flights[j].attempts == old(flights[j].attempts) + (if j == k then [coin] else [])
    {
      booked, cost := flights[k].TryBookSeat(coin);
    }

    /** One pass of the worker loop in Sell, `coins` being the random draws of the
        flights' booking attempts. It returns whether the loop goes on: false once
        sales have ended; with an empty queue it only waits (TryDequeue failed,
        Thread.Sleep, continue); otherwise the next client is served. */
    method SellStep(coins: seq<bool>) returns (continueLoop: bool)
      requires Valid() && |coins| == |flights|
      modifies this, salesStat, memory, FlightSet
      ensures Valid()
      ensures old(hasEnded) || old(queue) == [] ==>
        continueLoop == !old(hasEnded) && queue == old(queue) && Counters() == old(Counters()) &&
        hasEnded == old(hasEnded) && outbox == old(outbox) && endLog == old(endLog) &&
        salesStat.totalRevenue == old(salesStat.totalRevenue) &&
        salesStat.totalClientsServed == old(salesStat.totalClientsServed) &&
        clientFactoryRunning == old(clientFactoryRunning) && memory[..] == old(memory[..])
      ensures !old(hasEnded) && old(queue) != [] ==>
        queue == old(queue)[1..] &&
        (continueLoop <==> FirstAvailable(old(Counters())) < |flights|)
      ensures !old(hasEnded) && old(queue) != [] && !continueLoop ==>
        hasEnded && !clientFactoryRunning && endLog == [SoldOut] && Counters() == old(Counters()) &&
        outbox == (if managerConnected then [AllFlightsSoldOutCode] else []) &&
        salesStat.totalRevenue == old(salesStat.totalRevenue) &&
        salesStat.totalClientsServed == old(salesStat.totalClientsServed) &&
        memory[..] == old(memory[..])
      ensures !old(hasEnded) && old(queue) != [] && continueLoop ==>
        var k := FirstAvailable(old(Counters()));
        var cost := Cost(old(Counters())[k], coins[k]);
        !hasEnded && outbox == old(outbox) && endLog == old(endLog) &&
        Counters() == old(Counters())[k := Decrement(old(Counters())[k], cost)] &&
        salesStat.totalRevenue == old(salesStat.totalRevenue) + cost &&
        salesStat.totalClientsServed == old(salesStat.totalClientsServed) + 1 &&
        clientFactoryRunning == old(clientFactoryRunning) && memory[Size..] == old(memory[Size..])
      ensures managerConnected == old(managerConnected)
    {
      if cancelled || hasEnded {
        return false;
      }
      if queue == [] {
        return true;
      }
      CreationOrderTail(queue, clientIds.next);
      queue := queue[1..];
      continueLoop := ServeClient(coins);
    }

    /** The body of the worker loop once a client has been dequeued: try the
        flights in order; if none has a seat, end sales with SoldOut and leave the
        loop with the statistics unchanged; otherwise add the cost to revenue and
        one client to clients served and republish the snapshot. */
    method ServeClient(coins: seq<bool>) returns (sold: bool)
      requires Valid() && |coins| == |flights|
      requires !hasEnded
      modifies this, salesStat, memory, FlightSet
      ensures Valid()
      ensures queue == old(queue) && managerConnected == old(managerConnected)
      ensures sold <==> FirstAvailable(old(Counters())) < |flights|
      ensures !sold ==>
        hasEnded && !clientFactoryRunning && endLog == [SoldOut] && Counters() == old(Counters()) &&
        outbox == (if managerConnected then [AllFlightsSoldOutCode] else []) &&
        salesStat.totalRevenue == old(salesStat.totalRevenue) &&
        salesStat.totalClientsServed == old(salesStat.totalClientsServed) &&
        memory[..] == old(memory[..])
      ensures sold ==>
        var k := FirstAvailable(old(Counters()));
        var cost := Cost(old(Counters())[k], coins[k]);
        !hasEnded && outbox == old(outbox) && endLog == old(endLog) &&
        Counters() == old(Counters())[k := Decrement(old(Counters())[k], cost)] &&
        salesStat.totalRevenue == old(salesStat.totalRevenue) + cost &&
        salesStat.totalClientsServed == old(salesStat.totalClientsServed) + 1 &&
        clientFactoryRunning == old(clientFactoryRunning) && memory[Size..] == old(memory[Size..])
    {
      ghost var before := Counters();
      CountersWithinInitial();
      var cost, k;
      sold, cost, k := BookFirstAvailable(coins);
      if !sold {
        assert !hasEnded && Counters() == before;
        EndOfSales(SoldOut);
        assert Counters() == before && memory[..] == old(memory[..]);
        return;
      }
      CompleteSale(before, k, coins[k], cost);
    }

    /** The statistics half of a sale: once flight k has sold a seat for cost,
        the register and the segment catch up with the flights. */
    method CompleteSale(ghost before: seq<Seats>, k: nat, coin: bool, cost: int)
      requires Wired() && |before| == |flights| && k < |before|
      requires forall i :: 0 <= i < |before| ==> WithinInitial(before[i])
      requires salesStat.totalRevenue == Revenue(before)
      requires salesStat.totalClientsServed == Served(before)
      requires cost == Cost(before[k], coin) && cost != 0
      requires Counters() == before[k := Decrement(before[k], cost)]
      modifies salesStat, memory
      ensures Valid()
      ensures salesStat.totalRevenue == old(salesStat.totalRevenue) + cost
      ensures salesStat.totalClientsServed == old(salesStat.totalClientsServed) + 1
      ensures memory[Size..] == old(memory[Size..])
      ensures Counters() == old(Counters())
    {
      SaleTotals(before, k, coin);
      ghost var after := Counters();
      assert 0 <= salesStat.totalRevenue + cost == Revenue(after) < Two31;
      assert 0 <= salesStat.totalClientsServed + 1 == Served(after) < Two31;
      RecordSale(cost);
      assert Counters() == after;
    }

    /** Every flight's counters lie between zero and its initial seats. */
    lemma CountersWithinInitial()
      requires FlightsValid()
      ensures forall i :: 0 <= i < |flights| ==> WithinInitial(Counters()[i])
    {
      forall i | 0 <= i < |flights|
        ensures WithinInitial(Counters()[i])
      {
        assert flights[i].Valid();
      }
    }
  }
}

=== FILE: sales_stat.dfy ===
/** The Sales process's statistics register: two int fields, each behind its own
    lock, with get/set properties. */
module SalesStats {
  import opened Int32
  import opened StatText

  class SalesStat {
    var totalClientsServed: int32
    var totalRevenue: int32

    constructor ()
      ensures totalClientsServed == 0 && totalRevenue == 0
    {
      totalClientsServed := 0;
      totalRevenue := 0;
    }

    /** The TotalClientsServed setter: the revenue field is not touched. */
    method SetTotalClientsServed(value: int32)
      modifies this
      ensures totalClientsServed == value
      ensures totalRevenue == old(totalRevenue)
    {
      totalClientsServed := value;
    }

    /** The TotalRevenue setter: the clients field is not touched. */
    method SetTotalRevenue(value: int32)
      modifies this
      ensures totalRevenue == value
      ensures totalClientsServed == old(totalClientsServed)
    {
      totalRevenue := value;
    }

    /** "TotalClientsServed=<c>, TotalRevenue=<r>" with both values in decimal. */
    function ToString(): (s: string)
      reads this
      ensures s == Render(totalClientsServed, totalRevenue)
      ensures ClientsLabel <= s
      ensures forall c, r :: Render(c, r) == s ==> c == totalClientsServed && r == totalRevenue
    {
      var s := Render(totalClientsServed, totalRevenue);
      forall c, r | Render(c, r) == s
        ensures c == totalClientsServed && r == totalRevenue
      {
        RenderInjective(c, r, totalClientsServed, totalRevenue);
      }
      s
    }
  }
}

=== FILE: snapshot.dfy ===
/** The 8-byte statistics snapshot published by Sales in the shared memory segment
    and polled by Manager: revenue as int32 at offset 0, clients served as int32 at
    offset 4. */
module Snapshot {
  import opened ControlCodes
  import opened Int32

  const RevenueOffset: nat := 0
  const ClientsOffset: nat := 4
  /** Bytes of the snapshot that are used. */
  const Size: nat := 8
  /** Capacity the Sales process gives the named segment. */
  const SegmentCapacity: nat := 4096

  datatype Stats = Stats(revenue: int32, clients: int32)

  /** The bytes the writer stores: revenue bytes, then clients bytes. */
  function Encode(s: Stats): (buf: seq<Byte>)
    ensures |buf| == Size
  {
    GetBytes(s.revenue) + GetBytes(s.clients)
  }

  /** What the reader decodes from the first eight bytes of the segment. */
  function Decode(buf: seq<Byte>): (d: Stats)
    requires |buf| >= Size
    ensures d.revenue < 0 <==> buf[RevenueOffset + 3] >= 0x80
    ensures d.clients < 0 <==> buf[ClientsOffset + 3] >= 0x80
  {
    Stats(ToInt32(buf, RevenueOffset), ToInt32(buf, ClientsOffset))
  }

  /** A zero-filled segment holds the snapshot of zero revenue and zero clients. */
  lemma ZeroSnapshot()
    ensures Encode(Stats(0, 0)) == seq(Size, _ => 0)
  {
  }

  /** The reader recovers exactly the statistics the writer stored. */
  lemma {:induction false} DecodeEncode(s: Stats)
    ensures Decode(Encode(s)) == s
  {
    var buf := Encode(s);
    assert buf[0..4] == GetBytes(s.revenue);
    assert buf[4..8] == GetBytes(s.clients);
    ToInt32GetBytes(s.revenue);
    ToInt32GetBytes(s.clients);
    assert GetBytes(s.revenue)[0..4] == GetBytes(s.revenue);
    assert GetBytes(s.clients)[0..4] == GetBytes(s.clients);
  }

  /** Every 8-byte content of the snapshot is the encoding of what is read from it,
      so the writer and reader layouts agree byte for byte. */
  lemma {:induction false} EncodeDecode(buf: seq<Byte>)
    requires |buf| == Size
    ensures Encode(Decode(buf)) == buf
  {
    var r, c := buf[0..4], buf[4..8];
    assert r[0..4] == r && c[0..4] == c;
    GetBytesToInt32(r);
    GetBytesToInt32(c);
    assert ToInt32(buf, 0) == ToInt32(r, 0);
    assert ToInt32(buf, 4) == ToInt32(c, 0);
    assert buf == r + c;
  }
}

=== FILE: stat_text.dfy ===
/** The text both SalesStat classes produce from `ToString()`:
    "TotalClientsServed=<clients>, TotalRevenue=<revenue>". */
module StatText {
  import opened Decimal

  const ClientsLabel: string := "TotalClientsServed="
  const RevenueLabel: string := ", TotalRevenue="

  /** The clients label, the clients count in decimal, the revenue label and
      the revenue in decimal. */
  function Render(clients: int, revenue: int): string {
    ClientsLabel + IntToDecimal(clients) + RevenueLabel + IntToDecimal(revenue)
  }

  /** The rendered line starts with the clients label and the clients count and
      ends with the revenue label and the revenue, each count at least one
      character long. */
  lemma RenderLayout(clients: int, revenue: int)
    ensures ClientsLabel + IntToDecimal(clients) + RevenueLabel <= Render(clients, revenue)
    ensures Render(clients, revenue)[|Render(clients, revenue)| - |IntToDecimal(revenue)|..]
         == IntToDecimal(revenue)
    ensures |Render(clients, revenue)| >= |ClientsLabel| + |RevenueLabel| + 2
  {
    var s := Render(clients, revenue);
    var head := ClientsLabel + IntToDecimal(clients) + RevenueLabel;
    assert s == head + IntToDecimal(revenue);
    assert s[..|head|] == head;
    assert s[|s| - |IntToDecimal(revenue)|..] == IntToDecimal(revenue);
  }

  /** The rendered line determines both counters. */
  lemma RenderInjective(c1: int, r1: int, c2: int, r2: int)
    requires Render(c1, r1) == Render(c2, r2)
    ensures c1 == c2 && r1 == r2
  {
    var n := |ClientsLabel|;
    var d1, d2 := IntToDecimal(c1), IntToDecimal(c2);
    var t1, t2 := RevenueLabel + IntToDecimal(r1), RevenueLabel + IntToDecimal(r2);
    assert Render(c1, r1)[n..] == d1 + t1;
    assert Render(c2, r2)[n..] == d2 + t2;
    SplitAtComma(d1, t1, d2, t2);
    IntToDecimalInjective(c1, c2);
    assert t1[|RevenueLabel|..] == IntToDecimal(r1);
    assert t2[|RevenueLabel|..] == IntToDecimal(r2);
    IntToDecimalInjective(r1, r2);
  }

  /** The position of the first comma in s, or |s| when there is none. */
  function FirstComma(s: string): (k: nat)
    ensures k <= |s|
  {
    if s == [] then 0 else if s[0] == ',' then 0 else 1 + FirstComma(s[1..])
  }

  lemma {:induction false} FirstCommaAfter(a: string, x: string)
    requires forall k :: 0 <= k < |a| ==> a[k] != ','
    requires |x| > 0 && x[0] == ','
    ensures FirstComma(a + x) == |a|
  {
    if a != [] {
      assert (a + x)[1..] == a[1..] + x;
      FirstCommaAfter(a[1..], x);
    }
  }

  /** When two comma-free prefixes are each followed by a comma, the prefixes are
      the same. */
  lemma SplitAtComma(a: string, x: string, b: string, y: string)
    requires forall k :: 0 <= k < |a| ==> a[k] != ','
    requires forall k :: 0 <= k < |b| ==> b[k] != ','
    requires |x| > 0 && x[0] == ',' && |y| > 0 && y[0] == ','
    requires a + x == b + y
    ensures a == b && x == y
  {
    FirstCommaAfter(a, x);
    FirstCommaAfter(b, y);
    assert a == (a + x)[..|a|] == (b + y)[..|b|] == b;
    assert x == (a + x)[|a|..] == (b + y)[|b|..] == y;
  }
}

=== FILE: worker.dfy ===
/** A salesman thread's identity: an id from its own class-wide counter and the
    cancellation token it was started with. */
module Workers {
  import opened Ids

  /** The token of the one cancellation source of the Sales process; only its
      identity matters here. */
  datatype CancellationToken = CancellationToken(source: nat)

  class Worker {
    /** Get-only. */
    const id: int
    /** Get-only. */
    const token: CancellationToken

    /** `new Worker(token)`: take the counter value as id and store the token. */
    constructor (counter: IdCounter, token: CancellationToken)
      requires counter.Valid()
      modifies counter
      ensures counter.Valid()
      ensures id == old(counter.next) && counter.next == old(counter.next) + 1
      ensures counter.issued == old(counter.issued) + [id]
      ensures this.token == token
    {
      var taken := counter.Take();
      id := taken;
      this.token := token;
    }
  }

  /** StartWorkerThreads without the threads: n workers created in turn with the
      same token get consecutive ids. */
  method CreateWorkers(counter: IdCounter, token: CancellationToken, n: nat)
    returns (workers: seq<Worker>)
    requires counter.Valid()
    modifies counter
    ensures counter.Valid()
    ensures |workers| == n && counter.next == old(counter.next) + n
    ensures forall i :: 0 <= i < n ==> workers[i].id == old(counter.next) + i
    ensures forall i :: 0 <= i < n ==> workers[i].token == token
  {
    workers := [];
    var i := 0;
    while i < n
      invariant 0 <= i <= n && |workers| == i
      invariant counter.Valid() && counter.next == old(counter.next) + i
      invariant forall k :: 0 <= k < i ==> workers[k].id == old(counter.next) + k
      invariant forall k :: 0 <= k < i ==> workers[k].token == token
    {
      var w := new Worker(counter, token);
      workers := workers + [w];
      i := i + 1;
    }
  }
}
